=== FILE: README.md ===
# Report lifecycle of the congregation activity-report app, in Dafny

This project models the report lifecycle of a small church-activity reporting web
app. A congregation fills in a monthly report form and submits it. The report is
stored, newest first, with status PENDING. Two leaders, the area coordinator and
the CEAD supervisor, each validate it by typing their name and their role's
password into a signing dialog. A report becomes VALIDATED once both have signed.
A leadership dashboard counts the reports and the pending ones, and adds up
baptisms and conversions.

Everything is modelled as immutable data and pure functions:

- `types.dfy` (module `Types`): the form data, signature slots, roles, statuses
  and stored reports. It also defines the central invariant: a report is VALIDATED
  exactly when both validating slots are valid, and a slot has a signing time
  exactly when it is valid.
- `constants.dfy` (`Constants`): the two role passwords and the initial form and
  signature block.
- `text.dfy` (`Text`): JavaScript's `trim` over the ECMAScript white-space and
  line-terminator characters, and `length` counted in UTF-16 code units.
- `signature_modal.dfy` (`SignatureModal`): the signing dialog's submit handler.
  The password is checked first, then the trimmed name's length. Only then is the
  name handed on.
- `reports.dfy` (`Reports`): the success callback that writes the signature into
  the selected report and recomputes its status.
- `dashboard.dfy` (`Dashboard`): the four dashboard counters, proved equal to
  independent reference definitions.
- `report_form.dfy` (`ReportForm`): single-field edits, the submission guard and
  the report a submission creates.
- `app.dfy` (`App`): the application state and one handler per user action. It
  has a `Step`/`Run` state machine and the proof that every reachable state keeps
  the invariant. It ends with an example run: a report for "Betel"/"Norte" is
  signed by the supervisor, then by the coordinator.

Report ids and clock readings are parameters of the handlers. The report list
starts empty.

Behaviour of the code worth noting:

- The success callback does not check whether the slot is already signed. Signing
  it again overwrites the name and time (`Reports.ResignOverwrites`). Through the
  user interface this is harder to reach. The detail view hides a role's "validate"
  button once that role's slot is signed (`App.OpenSigningOnlyFromButton`). A
  signed slot can still be signed again in two ways. A dialog may have been left
  open from earlier; the dialog's overlay blocks the mouse, so reaching another
  report with it open takes keyboard focus behind the overlay. Or a second report may have the same id: ids are random and
  never checked for uniqueness, the detail view shows the first report with the
  id, and the callback signs every report with it (`App.DuplicateIdResigns`).
- Signing an id that is not in the list changes nothing and reports no error.
- A rejected submission shows one generic alert and changes no state.
- The name check counts UTF-16 code units, as JavaScript's `length` does. Two
  characters outside the Basic Multilingual Plane therefore pass the "at least 3"
  test (`SignatureModal.TwoAstralCharactersAccepted`).
- The dialog's name and password inputs are both marked `required`. The browser
  does not submit the dialog while either is empty, so no error appears then
  (`App.EmptyDialogInputBlocked`).
- A submitted report copies the form's signature block as it is. Its two
  validating slots are unsigned only because the form never edits them. `App.Inv`
  carries that fact.
- A selection of `""` counts as no selection, because the handler tests
  `!selectedReportId`.

## Model

| member | source | states |
|---|---|---|
| `Constants.InitialDataDefaults` | constants.ts:9-90 | Every count of the initial form is 0 except the year, including baptisms and conversions. Every text is empty. |
| `Constants.InitialDataSpecialDefaults` | constants.ts:14-89 | The year starts at 2025, the has-a-leader flag starts false, and there is no attachment. |
| `Constants.InitialDataWellFormed` | constants.ts:9-90 | Every field of the initial form holds a value of its declared type. |
| `Constants.InitialSignaturesUnsigned` | constants.ts:92-97 | Both validating slots start unsigned: empty name, no time, not valid, hence coherent and not fully signed. Both local names start empty. |
| `Text.TrimStart` | components/SignatureModal.tsx:28 | Only leading white space is removed: the result is a suffix of the input, what was cut is all white space, and the result does not start with white space. |
| `Text.TrimEnd` | components/SignatureModal.tsx:28 | Only trailing white space is removed: the result is a prefix, what was cut is all white space, and the result does not end with white space. |
| `Text.Trim` | components/SignatureModal.tsx:28 | The trimmed name is no longer than the name, and neither starts nor ends with white space. |
| `Text.TrimIsSlice` | components/SignatureModal.tsx:28 | The name is the trimmed text with white space only on either side. |
| `Text.AllWhiteSpaceTrimsEmpty` | components/SignatureModal.tsx:28 | A text trims to empty if and only if it is all white space. |
| `Text.TrimIdempotent` | components/SignatureModal.tsx:28 | Trimming twice gives the same as trimming once. |
| `Text.Utf16Length` | components/SignatureModal.tsx:28 | The length JavaScript reports lies between the number of characters and twice that. |
| `Text.Utf16LengthAppend` | components/SignatureModal.tsx:28 | The length of a concatenation is the sum of the two lengths. |
| `Text.Utf16LengthIsLengthIffNoAstral` | components/SignatureModal.tsx:28 | The length equals the character count if and only if no character lies outside the Basic Multilingual Plane. |
| `Text.Utf16LengthIsDoubleIffAllAstral` | components/SignatureModal.tsx:28 | The length is twice the character count if and only if every character lies outside the Basic Multilingual Plane. |
| `SignatureModal.ExpectedPassword` | components/SignatureModal.tsx:23-25 | The coordinator's role expects the coordinator password. Every other role expects the supervisor password. |
| `SignatureModal.HandleSubmit` | components/SignatureModal.tsx:19-39 | The name is handed on if and only if the password is right and the trimmed name has at least 3 code units. It is handed on once, untrimmed, with the fields cleared and the dialog closing. Otherwise name and password stay, and the error is the password error or the name error, password first. |
| `SignatureModal.PasswordsDistinct` | constants.ts:4-7 | The two roles' passwords differ. |
| `SignatureModal.PasswordCheckedFirst` | components/SignatureModal.tsx:27-38 | With a wrong password nothing is signed and the name error never appears. Changing the typed name changes nothing else. |
| `SignatureModal.BlankNameRefused` | components/SignatureModal.tsx:28-31 | With the right password, a name of only white space, however long, is refused with the name error. |
| `SignatureModal.NameLengthBound` | components/SignatureModal.tsx:28 | A trimmed name of at least 3 characters always passes. One of fewer than 2 never does. |
| `SignatureModal.AcceptedInputsNonEmpty` | components/SignatureModal.tsx:54-73 | A name that passes the check, and a role's password, are never empty, so the dialog's required inputs never block a signature that would succeed. |
| `SignatureModal.TwoAstralCharactersAccepted` | components/SignatureModal.tsx:28 | A name of two characters outside the Basic Multilingual Plane has a trimmed length of 2 and still passes. |
| `Reports.SignedEntry` | App.tsx:106-108 | A freshly signed slot is valid, carries the given name and time, and is coherent. |
| `Reports.SignReport` | App.tsx:103-120 | The role's slot becomes {name, time, valid} and the other slot is unchanged. Local names, data, id and date are unchanged. The status is VALIDATED if and only if the other slot was already valid, so the status matches the two slots. |
| `Reports.SignMatching` | App.tsx:102-123 | Length and order are kept. Each report with the selected id is signed, and every other report is unchanged. |
| `Reports.HandleSignatureSuccess` | App.tsx:97-124 | A null or empty selection changes nothing. Otherwise only reports with the selected id change, each signed, and the length is kept. |
| `Reports.UnknownIdChangesNothing` | App.tsx:102-123 | A selection naming no report leaves the list as it was. |
| `Reports.SignPreservesCoherence` | App.tsx:104-119 | Signing a report whose slots are coherent yields a fully coherent report. |
| `Reports.HandleSignaturePreservesInvariant` | App.tsx:97-124 | If every report was coherent before the callback, every report is coherent after it. |
| `Reports.SigningOrderIrrelevant` | App.tsx:104-119 | Coordinator then supervisor gives the same report as supervisor then coordinator, and it is VALIDATED. |
| `Reports.OneSignatureLeavesPending` | App.tsx:112-119 | One signature leaves a report PENDING while the other slot is unsigned. |
| `Reports.ResignOverwrites` | App.tsx:104-109 | Signing the same slot twice keeps only the second signature. |
| `Reports.SigningNeverRevokes` | App.tsx:104-119 | A valid slot stays valid, and a consistent VALIDATED report stays VALIDATED. |
| `Dashboard.PendingOnly` | App.tsx:132 | The status filter keeps exactly the pending reports of the list and is no longer than it. |
| `Dashboard.ReduceIsSum` | App.tsx:133-134 | The front-to-back running total equals the start value plus the reference sum. |
| `Dashboard.PendingOnlyCounts` | App.tsx:132 | The filter's length is the number of PENDING occurrences among the statuses. |
| `Dashboard.Stats` | App.tsx:131-134 | `totalReports` is the list length. `pendingReports` is the number of PENDING statuses and at most the total. The two totals are the sums of baptisms and conversions. |
| `Dashboard.StatsPrepend` | App.tsx:131-134 | A report added at the front adds 1 to the total. It adds 1 to the pending count if it is pending, and its own values to each sum. |
| `Dashboard.BaptismTotalExample` | App.tsx:133 | Baptism counts 2, 0 and 5 give a total of 7. |
| `Dashboard.PendingMeansNotFullySigned` | App.tsx:132 | On a coherent list, the pending count is the number of reports missing a validating signature. |
| `Dashboard.SigningKeepsSum` | App.tsx:133-134 | Signing any report leaves the baptism and conversion sums unchanged. |
| `Dashboard.SigningNeverAddsPending` | App.tsx:132 | On a coherent list, signing never adds a pending report. |
| `Dashboard.SigningKeepsTotals` | App.tsx:131-134 | Signing leaves the report count and both sums unchanged and never raises the pending count. |
| `ReportForm.UpdateData` | App.tsx:49-51 | The edited field reads back the new value, every other field keeps its value, and well-typed fields stay well-typed. |
| `ReportForm.NewReport` | App.tsx:64-70 | A new report is PENDING, holds the form data and signature block, and is coherent when the block's slots are unsigned. |
| `App.InitialApp` | App.tsx:15-38 | The app starts on the home view with the initial form and signature block. The report list is empty, no report is chosen, the dialog is closed and blank, and no admin password is typed. |
| `App.FindReport` | App.tsx:556-557 | The detail view finds nothing if and only if no report has the selected id. Otherwise it shows the first report with that id. |
| `App.Step` | App.tsx:150-855 | Wires each user action to its handler: the form inputs, the file input, the two local names, submit, admin login, choosing a report, the detail view's buttons and the dialog. Only a submission or a dialog confirmation changes the report list. The list never gets shorter and grows by at most one. The dialog opens only through the button the detail view shows, and only that button changes the active role. |
| `App.Run` | App.tsx:47-124 | Over a sequence of actions the list never gets shorter and grows by at most one per action. |
| `App.SubmitKeeps` | App.tsx:64-72 | A submission keeps every old report, in order, behind the new one. |
| `App.PressKeeps` | App.tsx:102-123 | Confirming the signing dialog keeps the number of reports, and every report in its place, with its id, data and date. |
| `App.StepKeeps` | App.tsx:150-855 | No user action removes or reorders a stored report, or changes its id, data or submission date. |
| `App.KeptTrans` | App.tsx:47-124 | Keeping the reports through one change and then another keeps them through both. |
| `App.RunKeeps` | App.tsx:47-124 | Over any sequence of user actions, every stored report survives in order with its id, data and submission date. |
| `App.DuplicateIdResigns` | App.tsx:102-123 | When two reports share an id, signing through the first one's button also writes the second report's slot, replacing any earlier signature there. |
| `App.OpenSigningOnlyFromButton` | App.tsx:758-791 | A role's validate button opens the dialog for that role if and only if the detail view shows it. That is when the shown report's slot for the role is unsigned. On a signed slot, or away from the detail view, the action changes nothing. |
| `App.EmptyDialogInputBlocked` | components/SignatureModal.tsx:54-73 | With the name or the password empty, confirming the dialog changes nothing, not even the error shown. |
| `App.SubmitReport` | App.tsx:58-79 | With an empty congregation or area nothing changes. Otherwise the list grows by one: the head is the new PENDING report of the form, and the old list follows. The form and signatures are reset to their initial values and the home view is shown. Nothing else changes. |
| `App.UntouchedFormRejected` | App.tsx:58-62 | Submitting the untouched initial form changes nothing. |
| `App.HandleAdminLogin` | App.tsx:81-90 | The admin password opens the dashboard and clears the typed password and the error. Any other password only sets the error. The reports and the form are untouched. |
| `App.DashboardNeedsAdminPassword` | App.tsx:81-90 | From any other view, login reaches the dashboard if and only if the typed password is the admin password. |
| `App.OpenSignatureModal` | App.tsx:92-95 | The dialog opens for the given role, which becomes the role the success callback writes. Reports and dialog fields are untouched. |
| `App.ConfirmSignature` | App.tsx:850-855 | The dialog checks the active role's password and the name. On success the list changes exactly as the success callback says, and the dialog clears and closes. On failure the list and the open dialog stay, with the password or name error. |
| `App.InitialAppInv` | App.tsx:18-38 | The initial state satisfies the lifecycle invariant. |
| `App.SubmitPreservesInv` | App.tsx:58-79 | A submission keeps the invariant: the new report is PENDING with both slots unsigned. |
| `App.ConfirmPreservesInv` | App.tsx:97-124 | A signing attempt keeps the invariant, whatever was typed. |
| `App.StepPreservesInv` | App.tsx:47-124 | Every user action keeps the invariant. |
| `App.RunPreservesInv` | App.tsx:47-124 | Every sequence of user actions keeps the invariant. So in every reachable state, each report is VALIDATED exactly when both slots are valid, and a slot has a time exactly when it is valid. |
| `App.WrongPasswordChangesNothing` | components/SignatureModal.tsx:27-38 | A wrong password leaves the report list unchanged and only sets the password error in the dialog. |
| `App.OtherRolePasswordFails` | components/SignatureModal.tsx:23-27 | One role's password never passes the other role's check. |
| `App.SignInEitherOrder` | App.tsx:102-123 | The list signed by the coordinator then the supervisor equals the list signed in the reverse order. |
| `App.SigningStage` | App.tsx:92-124 | Selecting a report whose slot for the role is unsigned, opening the dialog, and typing the role's password and an acceptable name, then confirming, signs every report with that id. The dialog is cleared and closed. |
| `App.BetelScenario` | App.tsx:58-124 | Submitting "Betel"/"Norte" gives one PENDING report. After the supervisor signs it stays PENDING. After the coordinator signs it is VALIDATED, with both signing times recorded. |

## Left out

- Persistence: loading the list from `localStorage` and saving it after every change, with JSON parse/stringify. This is browser I/O. The list is plain state and starts empty, and the save/reload round trip is not modelled.
- Alerts, `window.print`, and the simulated e-mail notice after a submission. These are side effects with no effect on state.
- Id generation with `Math.random` and formatting of the current date. Both are nondeterministic and depend on the locale, so the id and timestamps are parameters.
- `Number(v)` coercion of form input and floating-point arithmetic. Every count is an unbounded integer, and NaN is not modelled.
- Rendering and presentation: the home, form, dashboard and detail views, the header and the input widgets. Navigation is a single `Navigate` event that may go to any view. This over-approximates the app's buttons and is harmless for the invariant.
- `App.Step`: does not model the dialog's overlay, which covers the page while the dialog is open. In the model, the other actions (navigating, choosing another report, submitting) stay possible with the dialog open. Choosing a report may name any id, where the dashboard offers only the ids on the list. Every action is accepted in every view, where the form edits, the attachment and the submission exist only in the form view, and the admin password and login only in the login view. Typing a signer name or password changes the dialog's fields even while it is closed, where the source renders those inputs only while the dialog is open (components/SignatureModal.tsx:17). All of these over-approximate the interface, and the invariant and the other proved properties hold regardless.
- `ReportForm.UpdateData`: requires a value of the field's declared type. The declared type of `updateData` accepts a string, number or boolean for every key, so TypeScript does not ensure this. Each call site passes the right kind: `Number(v)` for counts, the input's text for texts, and `checked` for the flag. The running code does not check it. `App.Step` ignores an ill-typed edit.
- `App.ConfirmSignature`: does not require the dialog to be open or its inputs to be filled in. `App.Step` checks both: the dialog is not rendered while closed, and the browser blocks the submit while a `required` input is empty.
- Field-wise equality of form data: the other fields are a function from field to value, and Dafny has no function extensionality. So no lemma says that writing back a field's current value gives an equal record. `ReportForm.UpdateData` states it field by field.
- JavaScript strings are sequences of UTF-16 code units, and may hold unpaired surrogates. The model's strings are sequences of Unicode scalar values, and only their UTF-16 length is computed.

=== FILE: app.dfy ===
/**
  The application's state and its event handlers: editing and submitting the
  report form, the administrator login, choosing a report, and the signing
  dialog wired to the report list. Every handler is a pure function from the
  state before the user's action to the state after it; the report identifier
  and the clock readings are parameters.
 */
module App {
  import opened Types
  import opened Constants
  import opened ReportForm
  import opened SignatureModal
  import Reports

  datatype View = Home | Form | AdminLogin | AdminDashboard | ReportDetail

  const AdminPassword: string := "admin123"
  const AdminLoginError: string := "Senha inválida (Dica: admin123)"

  datatype AppState = AppState(
    view: View,
    data: ReportData,
    localSignatures: Signatures,
    reports: seq<SavedReport>,
    selectedReportId: Option<string>,
    modalOpen: bool,
    activeRole: SignatureRole,
    adminPass: string,
    adminError: string,
    modal: ModalState)

  /** The state on first start: the home view, the initial form and signature block, an
      empty report list, no report chosen, the signing dialog closed and blank, and no
      administrator password typed. */
  function InitialApp(): (s: AppState)
    ensures s.view == Home && s.reports == [] && s.selectedReportId.None?
    ensures s.data == InitialReportData() && s.localSignatures == InitialSignatures
    ensures !s.modalOpen && s.modal == BlankModal && s.adminPass == "" && s.adminError == ""
  {
    AppState(Home, InitialReportData(), InitialSignatures, [], None, false, Coordinator, "", "", BlankModal)
  }

  /** Submitting the report form. Without a congregation or an area nothing changes;
      otherwise a pending report made from the form goes to the front of the list, the
      form is reset and the home view is shown. */
  function SubmitReport(s: AppState, id: string, now: string): (s': AppState)
    ensures !CanSubmit(s.data) ==> s' == s
    ensures CanSubmit(s.data) ==>
      && |s'.reports| == |s.reports| + 1
      && s'.reports[0].status == Pending
      && s'.reports[0].data == s.data
      && s'.reports[0].signatures == s.localSignatures
      && s'.reports[0].id == id && s'.reports[0].submissionDate == now
      && s'.reports[1..] == s.reports
      && s'.data == InitialReportData() && s'.localSignatures == InitialSignatures
      && s'.view == Home
      && s' == s.(reports := s'.reports, data := s'.data, localSignatures := s'.localSignatures, view := Home)
  {
    if !CanSubmit(s.data) then s
    else
      s.(reports := [NewReport(s.data, s.localSignatures, id, now)] + s.reports,
         data := InitialReportData(),
         localSignatures := InitialSignatures,
         view := Home)
  }

  /** The administrator login: the right password opens the dashboard and clears the
      typed password and the error; a wrong one only sets the error. */
  function HandleAdminLogin(s: AppState): (s': AppState)
    ensures s.adminPass == AdminPassword ==>
      s'.view == AdminDashboard && s'.adminError == "" && s'.adminPass == ""
    ensures s.adminPass != AdminPassword ==> s' == s.(adminError := AdminLoginError)
    ensures s'.reports == s.reports && s'.data == s.data && s'.localSignatures == s.localSignatures
  {
    if s.adminPass == AdminPassword then s.(view := AdminDashboard, adminError := "", adminPass := "")
    else s.(adminError := AdminLoginError)
  }

  /** Only the administrator password opens the dashboard from elsewhere. */
  lemma DashboardNeedsAdminPassword(s: AppState)
    requires s.view != AdminDashboard
    ensures HandleAdminLogin(s).view == AdminDashboard <==> s.adminPass == AdminPassword
    ensures HandleAdminLogin(s).adminError == "" <==> s.adminPass == AdminPassword
  {
  }

  /** The report the detail view shows: the first report whose id is the selected one,
      if any. */
  function FindReport(rs: seq<SavedReport>, selected: Option<string>): (r: Option<SavedReport>)
    ensures r.None? <==> forall i :: 0 <= i < |rs| ==> Some(rs[i].id) != selected
    ensures r.Some? ==> exists k :: 0 <= k < |rs| && rs[k] == r.value && Some(rs[k].id) == selected
                                   && forall j :: 0 <= j < k ==> Some(rs[j].id) != selected
  {
    if rs == [] then None
    else if Some(rs[0].id) == selected then Some(rs[0])
    else
      var rest := FindReport(rs[1..], selected);
      assert forall i :: 1 <= i < |rs| ==> rs[i] == rs[1..][i - 1];
      rest
  }

  /** The report with id `id` is on the list, and the first such report's slot for `role`
      is unsigned. */
  predicate SlotOpen(rs: seq<SavedReport>, id: string, role: SignatureRole)
  {
    var shown := FindReport(rs, Some(id));
    shown.Some? && !Slot(shown.value.signatures, role).isValid
  }

  /** The detail view offers the role's "validate" button only while the shown report's
      slot for that role is unsigned. */
  predicate SigningButtonShown(s: AppState, role: SignatureRole)
  {
    s.view == ReportDetail && s.selectedReportId.Some? && SlotOpen(s.reports, s.selectedReportId.value, role)
  }

  /** Opening the signing dialog for `role`: the role the dialog checks is the role the
      report list will write. */
  function OpenSignatureModal(s: AppState, role: SignatureRole): (s': AppState)
    ensures s'.activeRole == role && s'.modalOpen
    ensures s'.reports == s.reports && s'.modal == s.modal
  {
    s.(activeRole := role, modalOpen := true)
  }

  /** Submitting the signing dialog: the dialog checks password and name for the active
      role, and on success the report list records the signature on the selected report
      and the dialog closes. */
  function ConfirmSignature(s: AppState, timestamp: string): (s': AppState)
    ensures var ok := s.modal.password == ExpectedPassword(s.activeRole) && NameLongEnough(s.modal.name);
      && (ok ==> s'.reports == Reports.HandleSignatureSuccess(s.reports, s.selectedReportId, s.activeRole,
                                                               s.modal.name, timestamp))
      && (ok ==> s'.modal == BlankModal && !s'.modalOpen)
      && (!ok ==> s'.reports == s.reports && s'.modalOpen == s.modalOpen)
      && (!ok ==> s'.modal.name == s.modal.name && s'.modal.password == s.modal.password)
    ensures s.modal.password != ExpectedPassword(s.activeRole) ==> s'.modal.error == WrongPasswordError
    ensures s.modal.password == ExpectedPassword(s.activeRole) && !NameLongEnough(s.modal.name) ==>
              s'.modal.error == ShortNameError
    ensures s' == s.(reports := s'.reports, modal := s'.modal, modalOpen := s'.modalOpen)
  {
    var out := HandleSubmit(s.modal, s.activeRole);
    var reports :=
      if out.signedAs.Some?
      then Reports.HandleSignatureSuccess(s.reports, s.selectedReportId, s.activeRole, out.signedAs.value, timestamp)
      else s.reports;
    s.(reports := reports, modal := out.state, modalOpen := s.modalOpen && !out.closes)
  }

  /** The dialog is open and both of its required inputs are filled in. */
  predicate DialogReady(s: AppState)
  {
    s.modalOpen && s.modal.name != "" && s.modal.password != ""
  }

  /** The role's "validate" button of the detail view: shown only for an unsigned slot. */
  function PressValidate(s: AppState, role: SignatureRole): AppState
  {
    if SigningButtonShown(s, role) then OpenSignatureModal(s, role) else s
  }

  /** The dialog's submit button: the browser submits only a ready dialog. */
  function PressSign(s: AppState, timestamp: string): AppState
  {
    if DialogReady(s) then ConfirmSignature(s, timestamp) else s
  }

  /** One user action. */
  datatype Event =
    | Navigate(target: View)
    | EditField(key: Field, value: Value)
    | AttachFile(fileName: string)
    | EditDirigenteCead(name: string)
    | EditResponsavelCongregacao(name: string)
    | Submit(id: string, now: string)
    | TypeAdminPassword(password: string)
    | SubmitAdminLogin
    | SelectReport(id: string)
    | OpenSigning(role: SignatureRole)
    | CloseSigning
    | TypeSignerName(name: string)
    | TypeSignerPassword(password: string)
    | ConfirmSigning(timestamp: string)

  /** The state after the user's action `e`. Inputs only ever supply a value of the
      field's declared type; the signing dialog opens only from the button the detail view
      shows; and the dialog can be submitted only while open with both of its required
      inputs filled in. Anything else leaves the state as it was. */
  function Step(s: AppState, e: Event): (s': AppState)
    ensures s'.reports != s.reports ==> e.Submit? || e.ConfirmSigning?
    ensures |s.reports| <= |s'.reports| <= |s.reports| + 1
    ensures s'.modalOpen && !s.modalOpen ==> e.OpenSigning? && SigningButtonShown(s, e.role)
    ensures s'.activeRole != s.activeRole ==> e.OpenSigning? && SigningButtonShown(s, e.role)
  {
    match e
    case Navigate(v) => s.(view := v)
    case EditField(key, value) =>
      if HasKind(value, FieldKindOf(key)) then s.(data := UpdateData(s.data, key, value)) else s
    case AttachFile(fileName) => s.(data := UpdateData(s.data, Other(AttachmentName), Text(fileName)))
    case EditDirigenteCead(name) => s.(localSignatures := s.localSignatures.(dirigenteCead := name))
    case EditResponsavelCongregacao(name) =>
      s.(localSignatures := s.localSignatures.(responsavelCongregacao := name))
    case Submit(id, now) => SubmitReport(s, id, now)
    case TypeAdminPassword(p) => s.(adminPass := p)
    case SubmitAdminLogin => HandleAdminLogin(s)
    case SelectReport(id) => s.(selectedReportId := Some(id), view := ReportDetail)
    case OpenSigning(role) => PressValidate(s, role)
    case CloseSigning => s.(modalOpen := false)
    case TypeSignerName(name) => s.(modal := s.modal.(name := name))
    case TypeSignerPassword(p) => s.(modal := s.modal.(password := p))
    case ConfirmSigning(timestamp) => PressSign(s, timestamp)
  }

  /** The dialog's name and password inputs are both `required`, so the browser does not
      submit the dialog while either is empty: nothing changes, not even the error shown. */
  lemma EmptyDialogInputBlocked(s: AppState, timestamp: string)
    requires s.modal.name == "" || s.modal.password == ""
    ensures Step(s, ConfirmSigning(timestamp)) == s
  {
  }

  /** The role's button opens the dialog for that role exactly when the detail view shows
      it; on a report whose slot for the role is already signed, or away from the detail
      view, it does nothing. */
  lemma OpenSigningOnlyFromButton(s: AppState, role: SignatureRole)
    ensures SigningButtonShown(s, role) ==>
      Step(s, OpenSigning(role)).modalOpen && Step(s, OpenSigning(role)).activeRole == role
    ensures !SigningButtonShown(s, role) ==> Step(s, OpenSigning(role)) == s
    ensures s.selectedReportId.Some? && FindReport(s.reports, s.selectedReportId).Some?
         && Slot(FindReport(s.reports, s.selectedReportId).value.signatures, role).isValid
         ==> Step(s, OpenSigning(role)) == s
  {
  }

  /** The lifecycle invariant: every stored report is coherent (VALIDATED exactly when
      both slots are valid, and a slot has a time exactly when it is valid); the form's
      own two validating slots are unsigned, since the form edits only the local names;
      and the form's fields hold values of their declared types. */
  predicate Inv(s: AppState)
  {
    && AllCoherent(s.reports)
    && s.localSignatures.coordenadorArea == UnsignedEntry
    && s.localSignatures.supervisaoCead == UnsignedEntry
    && WellFormedData(s.data)
  }

  lemma InitialAppInv()
    ensures Inv(InitialApp())
  {
    InitialDataWellFormed();
  }

  /** An untouched form cannot be submitted. */
  lemma UntouchedFormRejected(id: string, now: string)
    ensures SubmitReport(InitialApp(), id, now) == InitialApp()
  {
  }

  /** A submission keeps the invariant: the new report starts pending with both slots
      unsigned. */
  lemma SubmitPreservesInv(s: AppState, id: string, now: string)
    requires Inv(s)
    ensures Inv(SubmitReport(s, id, now))
  {
    var s' := SubmitReport(s, id, now);
    if CanSubmit(s.data) {
      InitialDataWellFormed();
      assert Coherent(s'.reports[0]);
      forall i | 0 <= i < |s'.reports|
        ensures Coherent(s'.reports[i])
      {
        if i > 0 {
          assert s'.reports[i] == s.reports[i - 1];
        }
      }
    }
  }

  /** A signing attempt keeps the invariant, whatever it was typed into the dialog. */
  lemma ConfirmPreservesInv(s: AppState, timestamp: string)
    requires Inv(s)
    ensures Inv(ConfirmSignature(s, timestamp))
  {
    Reports.HandleSignaturePreservesInvariant(s.reports, s.selectedReportId, s.activeRole, s.modal.name, timestamp);
  }

  /** Every user action keeps the lifecycle invariant. */
  lemma StepPreservesInv(s: AppState, e: Event)
    requires Inv(s)
    ensures Inv(Step(s, e))
  {
    match e
    case Submit(id, now) => SubmitPreservesInv(s, id, now);
    case ConfirmSigning(timestamp) =>
      if DialogReady(s) {
        ConfirmPreservesInv(s, timestamp);
      }
    case _ =>
  }

  /** The state after a whole sequence of user actions. The list never gets shorter, and
      each action adds at most one report (`RunKeeps` shows the old reports survive). */
  function Run(s: AppState, es: seq<Event>): (s': AppState)
    ensures |s.reports| <= |s'.reports| <= |s.reports| + |es|
    decreases |es|
  {
    if es == [] then s else Run(Step(s, es[0]), es[1..])
  }

  /** Every state the application can reach from its first start satisfies the invariant;
      in particular every stored report is VALIDATED exactly when both slots are valid. */
  lemma {:induction false} RunPreservesInv(s: AppState, es: seq<Event>)
    requires Inv(s)
    ensures Inv(Run(s, es))
    decreases |es|
  {
    if es != [] {
      StepPreservesInv(s, es[0]);
      RunPreservesInv(Step(s, es[0]), es[1..]);
    }
  }

  /** The same stored report as far as the dashboard and the detail view's data go: the
      same id, form data and submission date. Signing may change its slots and status. */
  ghost predicate SameReport(a: SavedReport, b: SavedReport)
  {
    a.id == b.id && a.data == b.data && a.submissionDate == b.submissionDate
  }

  /** Every report of `before` survives in `after`, in order, as the tail of the list. */
  ghost predicate Kept(before: seq<SavedReport>, after: seq<SavedReport>)
  {
    |before| <= |after| && forall i :: 0 <= i < |before| ==> SameReport(after[|after| - |before| + i], before[i])
  }

  lemma KeptRefl(rs: seq<SavedReport>)
    ensures Kept(rs, rs)
  {
  }

  lemma KeptTrans(a: seq<SavedReport>, b: seq<SavedReport>, c: seq<SavedReport>)
    requires Kept(a, b) && Kept(b, c)
    ensures Kept(a, c)
  {
    forall i | 0 <= i < |a|
      ensures SameReport(c[|c| - |a| + i], a[i])
    {
      var j := |b| - |a| + i;
      assert SameReport(b[j], a[i]);
      assert SameReport(c[|c| - |b| + j], b[j]);
    }
  }

  /** A submission puts the new report in front of all the old ones. */
  lemma SubmitKeeps(s: AppState, id: string, now: string)
    ensures Kept(s.reports, SubmitReport(s, id, now).reports)
  {
    var rs' := SubmitReport(s, id, now).reports;
    if CanSubmit(s.data) {
      forall i | 0 <= i < |s.reports|
        ensures SameReport(rs'[|rs'| - |s.reports| + i], s.reports[i])
      {
        assert rs'[1..][i] == s.reports[i];
      }
    }
  }

  /** Confirming the dialog signs reports in place and removes none. */
  lemma PressKeeps(s: AppState, timestamp: string)
    ensures |PressSign(s, timestamp).reports| == |s.reports|
    ensures Kept(s.reports, PressSign(s, timestamp).reports)
  {
    var rs' := PressSign(s, timestamp).reports;
    if rs' != s.reports {
      assert DialogReady(s);
      var out := HandleSubmit(s.modal, s.activeRole);
      assert out.signedAs.Some?;
      assert rs' == Reports.HandleSignatureSuccess(s.reports, s.selectedReportId, s.activeRole, s.modal.name, timestamp);
    }
  }

  /** No user action removes, reorders or alters the identity, data or date of a stored
      report; a submission adds one in front. */
  lemma StepKeeps(s: AppState, e: Event)
    ensures Kept(s.reports, Step(s, e).reports)
  {
    match e
    case Submit(id, now) =>
      assert Step(s, e) == SubmitReport(s, id, now);
      SubmitKeeps(s, id, now);
    case ConfirmSigning(timestamp) =>
      assert Step(s, e) == PressSign(s, timestamp);
      PressKeeps(s, timestamp);
    case _ =>
      KeptRefl(s.reports);
  }

  /** Over any sequence of user actions every stored report survives, in order, with its
      id, data and date. */
  lemma {:induction false} RunKeeps(s: AppState, es: seq<Event>)
    ensures Kept(s.reports, Run(s, es).reports)
    decreases |es|
  {
    if es == [] {
      KeptRefl(s.reports);
    } else {
      StepKeeps(s, es[0]);
      RunKeeps(Step(s, es[0]), es[1..]);
      KeptTrans(s.reports, Step(s, es[0]).reports, Run(s, es).reports);
    }
  }

  /** A wrong password never changes the report list, whatever name was typed, and
      never reports the name as too short. */
  lemma WrongPasswordChangesNothing(s: AppState, timestamp: string)
    requires s.modal.password != ExpectedPassword(s.activeRole)
    ensures ConfirmSignature(s, timestamp).reports == s.reports
    ensures ConfirmSignature(s, timestamp).modal == s.modal.(error := WrongPasswordError)
  {
  }

  /** With the other role's password the signing attempt fails. */
  lemma OtherRolePasswordFails(s: AppState, timestamp: string)
    requires s.modal.password == ExpectedPassword(OtherRole(s.activeRole))
    ensures ConfirmSignature(s, timestamp).reports == s.reports
    ensures ConfirmSignature(s, timestamp).modal.error == WrongPasswordError
  {
    PasswordsDistinct(s.activeRole);
  }

  /** Signing the selected report in either role order gives the same report list. */
  lemma SignInEitherOrder(rs: seq<SavedReport>, sel: Option<string>, cName: string, cTime: string,
                          sName: string, sTime: string)
    ensures Reports.HandleSignatureSuccess(
              Reports.HandleSignatureSuccess(rs, sel, Coordinator, cName, cTime), sel, Supervisor, sName, sTime)
         == Reports.HandleSignatureSuccess(
              Reports.HandleSignatureSuccess(rs, sel, Supervisor, sName, sTime), sel, Coordinator, cName, cTime)
  {
    var a := Reports.HandleSignatureSuccess(
      Reports.HandleSignatureSuccess(rs, sel, Coordinator, cName, cTime), sel, Supervisor, sName, sTime);
    var b := Reports.HandleSignatureSuccess(
      Reports.HandleSignatureSuccess(rs, sel, Supervisor, sName, sTime), sel, Coordinator, cName, cTime);
    forall i | 0 <= i < |rs|
      ensures a[i] == b[i]
    {
      if Some(rs[i].id) == sel && rs[i].id != "" {
        Reports.SigningOrderIrrelevant(rs[i], cName, cTime, sName, sTime);
      }
    }
  }

  lemma {:induction false} RunConcat(s: AppState, a: seq<Event>, b: seq<Event>)
    ensures Run(s, a + b) == Run(Run(s, a), b)
    decreases |a|
  {
    if a == [] {
      assert a + b == b;
    } else {
      assert (a + b)[1..] == a[1..] + b;
      RunConcat(Step(s, a[0]), a[1..], b);
    }
  }

  /** The lifecycle end to end, in three stages: a report for congregation "Betel",
      area "Norte" is submitted; the supervisor signs it; the coordinator signs it. */
  const BetelSubmission: seq<Event> := [
    Navigate(Form), EditField(Congregacao, Text("Betel")), EditField(Area, Text("Norte")), Submit("A1", "t0")]

  /** Choosing the report `id`, opening the dialog for `role`, typing a name and a
      password, and confirming at `timestamp`. */
  function Signing(id: string, role: SignatureRole, name: string, password: string, timestamp: string): seq<Event>
  {
    [SelectReport(id), OpenSigning(role), TypeSignerName(name), TypeSignerPassword(password), ConfirmSigning(timestamp)]
  }

  /** The form data of the "Betel" report below: congregation "Betel", area "Norte". */
  function BetelData(): ReportData
  {
    UpdateData(UpdateData(InitialReportData(), Congregacao, Text("Betel")), Area, Text("Norte"))
  }

  /** Stage one: filling in congregation and area and submitting stores one pending report. */
  lemma SubmissionStage()
    ensures Run(InitialApp(), BetelSubmission).reports == [NewReport(BetelData(), InitialSignatures, "A1", "t0")]
    ensures Run(InitialApp(), BetelSubmission).modal == BlankModal
  {
    var s0 := InitialApp();
    var t := s0.(view := Form);
    var t1 := t.(data := UpdateData(t.data, Congregacao, Text("Betel")));
    var t2 := t1.(data := BetelData());
    calc {
      Run(s0, BetelSubmission);
      Run(t, BetelSubmission[1..]);
      Run(t1, BetelSubmission[2..]);
      Run(t2, BetelSubmission[3..]);
      { assert BetelSubmission[3..] == [Submit("A1", "t0")]; assert [Submit("A1", "t0")][1..] == []; }
      SubmitReport(t2, "A1", "t0");
    }
  }

  lemma RunSingle(s: AppState, e: Event)
    ensures Run(s, [e]) == Step(s, e)
  {
    assert [e][1..] == [];
  }

  /** A name that neither starts nor ends with white space and has three characters
      passes the name check. */
  lemma PlainNameAccepted(name: string)
    requires |name| >= 3 && !Text.IsWhiteSpace(name[0]) && !Text.IsWhiteSpace(name[|name| - 1])
    ensures NameLongEnough(name)
  {
    assert Text.TrimStart(name) == name;
    assert Text.TrimEnd(name) == name;
  }

  /** The two signer names used below pass the name check. */
  lemma ExampleNamesAccepted()
    ensures NameLongEnough("Maria Souza") && NameLongEnough("João Silva")
  {
    PlainNameAccepted("Maria Souza");
    PlainNameAccepted("João Silva");
  }

  /** The state the signing events set up before the dialog is confirmed. */
  function SigningSetup(s: AppState, id: string, role: SignatureRole, name: string, password: string): AppState
  {
    s.(selectedReportId := Some(id), view := ReportDetail, activeRole := role, modalOpen := true,
       modal := s.modal.(name := name, password := password))
  }

  lemma RunCons(s: AppState, e: Event, es: seq<Event>)
    ensures Run(s, [e] + es) == Run(Step(s, e), es)
  {
    assert ([e] + es)[0] == e && ([e] + es)[1..] == es;
  }

  lemma StepSelect(s: AppState, id: string)
    ensures Step(s, SelectReport(id)) == s.(selectedReportId := Some(id), view := ReportDetail)
  {
  }

  lemma StepOpen(s: AppState, role: SignatureRole)
    requires SigningButtonShown(s, role)
    ensures Step(s, OpenSigning(role)) == s.(activeRole := role, modalOpen := true)
  {
  }

  lemma StepTyping(s: AppState, name: string, password: string)
    ensures Step(Step(s, TypeSignerName(name)), TypeSignerPassword(password))
         == s.(modal := s.modal.(name := name, password := password))
  {
  }

  lemma {:induction false} SigningPrefix(s: AppState, id: string, role: SignatureRole, name: string, password: string,
                                         timestamp: string)
    requires SlotOpen(s.reports, id, role)
    ensures Run(s, Signing(id, role, name, password, timestamp))
         == Run(SigningSetup(s, id, role, name, password), [ConfirmSigning(timestamp)])
  {
    var last := [ConfirmSigning(timestamp)];
    var typing := [TypeSignerName(name)] + ([TypeSignerPassword(password)] + last);
    assert Signing(id, role, name, password, timestamp) == [SelectReport(id)] + ([OpenSigning(role)] + typing);
    var u1 := s.(selectedReportId := Some(id), view := ReportDetail);
    var u2 := u1.(activeRole := role, modalOpen := true);
    StepSelect(s, id);
    RunCons(s, SelectReport(id), [OpenSigning(role)] + typing);
    assert SigningButtonShown(u1, role);
    StepOpen(u1, role);
    RunCons(u1, OpenSigning(role), typing);
    RunCons(u2, TypeSignerName(name), [TypeSignerPassword(password)] + last);
    RunCons(Step(u2, TypeSignerName(name)), TypeSignerPassword(password), last);
    StepTyping(u2, name, password);
  }

  /** The signing events amount to one dialog submission from the state they set up. */
  lemma SigningRun(s: AppState, id: string, role: SignatureRole, name: string, password: string, timestamp: string)
    requires SlotOpen(s.reports, id, role) && name != "" && password != ""
    ensures Run(s, Signing(id, role, name, password, timestamp))
         == ConfirmSignature(SigningSetup(s, id, role, name, password), timestamp)
  {
    var setup := SigningSetup(s, id, role, name, password);
    SigningPrefix(s, id, role, name, password, timestamp);
    RunSingle(setup, ConfirmSigning(timestamp));
    StepConfirm(setup, timestamp);
  }

  /** With the dialog open and both inputs filled in, confirming submits the dialog. */
  lemma StepConfirm(s: AppState, timestamp: string)
    requires DialogReady(s)
    ensures Step(s, ConfirmSigning(timestamp)) == ConfirmSignature(s, timestamp)
  {
  }

  /** Choosing a report and signing it with the role's password and an acceptable name
      records the signature on that report and on no other, and closes the dialog. */
  lemma SigningStage(s: AppState, id: string, role: SignatureRole, name: string, timestamp: string)
    requires id != "" && NameLongEnough(name) && SlotOpen(s.reports, id, role)
    ensures var s' := Run(s, Signing(id, role, name, ExpectedPassword(role), timestamp));
      && s'.reports == Reports.SignMatching(s.reports, id, role, name, timestamp)
      && s'.modal == BlankModal && !s'.modalOpen && s'.selectedReportId == Some(id)
  {
    AcceptedInputsNonEmpty(name, role);
    SigningRun(s, id, role, name, ExpectedPassword(role), timestamp);
  }

  /** A one-report list offers the report's unsigned slot. */
  lemma SlotOpenSingle(r: SavedReport, id: string, role: SignatureRole)
    requires r.id == id && !Slot(r.signatures, role).isValid
    ensures SlotOpen([r], id, role)
  {
    assert FindReport([r], Some(id)) == Some(r);
  }

  /** Report ids are random and never checked for uniqueness. When two reports share an
      id, the button shown for the first one's unsigned slot also signs the second report,
      overwriting that slot even if it was already signed. */
  lemma DuplicateIdResigns(s: AppState, a: SavedReport, b: SavedReport, role: SignatureRole,
                           name: string, timestamp: string)
    requires s.reports == [a, b] && a.id != "" && b.id == a.id
    requires !Slot(a.signatures, role).isValid && NameLongEnough(name)
    ensures var s' := Run(s, Signing(a.id, role, name, ExpectedPassword(role), timestamp));
      && |s'.reports| == 2
      && Slot(s'.reports[1].signatures, role) == SignatureEntry(name, Some(timestamp), true)
  {
    assert FindReport(s.reports, Some(a.id)) == Some(a);
    SigningStage(s, a.id, role, name, timestamp);
  }

  /** After the submission there is one pending report; after the supervisor's signature it
      is still pending; after the coordinator's it is validated, with both times recorded. */
  lemma BetelScenario()
    ensures var s := Run(InitialApp(), BetelSubmission);
      |s.reports| == 1 && s.reports[0].status == Pending && s.reports[0].id == "A1"
    ensures var s := Run(InitialApp(), BetelSubmission + Signing("A1", Supervisor, "Maria Souza", "super123", "t1"));
      |s.reports| == 1 && s.reports[0].status == Pending && s.reports[0].signatures.supervisaoCead.isValid
    ensures var s := Run(InitialApp(), BetelSubmission + Signing("A1", Supervisor, "Maria Souza", "super123", "t1")
                                       + Signing("A1", Coordinator, "João Silva", "coord123", "t2"));
      && |s.reports| == 1 && s.reports[0].status == Validated
      && s.reports[0].signatures.coordenadorArea.signedAt == Some("t2")
      && s.reports[0].signatures.supervisaoCead.signedAt == Some("t1")
  {
    var s0 := InitialApp();
    var supervisor := Signing("A1", Supervisor, "Maria Souza", "super123", "t1");
    var coordinator := Signing("A1", Coordinator, "João Silva", "coord123", "t2");
    SubmissionStage();
    ExampleNamesAccepted();
    var s1 := Run(s0, BetelSubmission);
    var r1 := NewReport(BetelData(), InitialSignatures, "A1", "t0");
    SlotOpenSingle(r1, "A1", Supervisor);
    SigningStage(s1, "A1", Supervisor, "Maria Souza", "t1");
    RunConcat(s0, BetelSubmission, supervisor);
    var s2 := Run(s1, supervisor);
    var r2 := Reports.SignReport(r1, Supervisor, "Maria Souza", "t1");
    assert s2.reports == [r2];
    SlotOpenSingle(r2, "A1", Coordinator);
    SigningStage(s2, "A1", Coordinator, "João Silva", "t2");
    RunConcat(s0, BetelSubmission + supervisor, coordinator);
  }
}

=== FILE: constants.dfy ===
/**
  The fixed values of the lifecycle: the per-role validation passwords and the
  state of an untouched report form.
 */
module Constants {
  import opened Types

  const CoordinatorPassword: string := "coord123"
  const SupervisorPassword: string := "super123"

  /** The value an untouched form shows in the other field `f`. */
  function DefaultValue(f: OtherField): Value
  {
    if f == Ano then Count(2025)
    else match KindOf(f)
      case CountKind => Count(0)
      case TextKind => Text("")
      case FlagKind => Flag(false)
      case AttachmentKind => Null
  }

  /** The form data the report form starts from and is reset to after a submission. */
  function InitialReportData(): (d: ReportData)
  {
    ReportData("", "", 0, 0, DefaultValue)
  }

  /** A validating slot nobody has signed. */
  const UnsignedEntry: SignatureEntry := SignatureEntry("", None, false)

  /** The signature block the report form starts from and is reset to. */
  const InitialSignatures: Signatures := Signatures("", "", UnsignedEntry, UnsignedEntry)

  /** The initial form holds a value of the declared type in every field. */
  lemma InitialDataWellFormed()
    ensures WellFormedData(InitialReportData())
  {
  }

  /** Every count starts at zero except the year, and every text starts empty. */
  lemma InitialDataDefaults()
    ensures InitialReportData().congregacao == "" && InitialReportData().area == ""
    ensures InitialReportData().bencaosBatismos == 0 && InitialReportData().conversoesTotal == 0
    ensures forall f :: KindOf(f) == CountKind && f != Ano ==>
              InitialReportData().others(f) == Count(0)
    ensures forall f :: KindOf(f) == TextKind ==> InitialReportData().others(f) == Text("")
  {
  }

  /** The year starts at 2025, the yes/no flag starts false and there is no attachment. */
  lemma InitialDataSpecialDefaults()
    ensures InitialReportData().others(Ano) == Count(2025)
    ensures InitialReportData().others(DiscipuladoPossuiResponsavel) == Flag(false)
    ensures InitialReportData().others(AttachmentName) == Null
  {
  }

  /** Both validating slots start unsigned, coherent and with an empty name, and the local
      signer names start empty. */
  lemma InitialSignaturesUnsigned()
    ensures !InitialSignatures.coordenadorArea.isValid && !InitialSignatures.supervisaoCead.isValid
    ensures InitialSignatures.coordenadorArea.signedAt.None? && InitialSignatures.supervisaoCead.signedAt.None?
    ensures EntryCoherent(InitialSignatures.coordenadorArea) && EntryCoherent(InitialSignatures.supervisaoCead)
    ensures InitialSignatures.coordenadorArea.name == "" && InitialSignatures.supervisaoCead.name == ""
    ensures InitialSignatures.dirigenteCead == "" && InitialSignatures.responsavelCongregacao == ""
    ensures !FullySigned(InitialSignatures)
  {
  }
}

=== FILE: dashboard.dfy ===
/**
  The leadership dashboard's four counters, recomputed from the report list on
  every render: how many reports there are, how many are still pending, and the
  totals of baptisms and conversions.
 */
module Dashboard {
  import opened Types
  import Reports

  datatype DashboardStats = DashboardStats(
    totalReports: nat,
    pendingReports: nat,
    totalBatismos: int,
    totalConversoes: int)

  /** The two numeric fields the dashboard adds up. */
  datatype Metric = Batismos | Conversoes

  function Measure(d: ReportData, m: Metric): int
  {
    match m
    case Batismos => d.bencaosBatismos
    case Conversoes => d.conversoesTotal
  }

  /** The pending reports of `rs`: the dashboard's status filter. */
  function PendingOnly(rs: seq<SavedReport>): (p: seq<SavedReport>)
    ensures |p| <= |rs|
    ensures forall r :: r in p ==> r in rs && r.status == Pending
    ensures forall r :: r in rs && r.status == Pending ==> r in p
  {
    if rs == [] then []
    else if rs[0].status == Pending then [rs[0]] + PendingOnly(rs[1..])
    else PendingOnly(rs[1..])
  }

  /** The dashboard's running total, accumulated from the front of the list the way
      `reduce` does, starting from `acc`. */
  function Reduce(acc: int, rs: seq<SavedReport>, m: Metric): int
    decreases |rs|
  {
    if rs == [] then acc else Reduce(acc + Measure(rs[0].data, m), rs[1..], m)
  }

  /** Reference definition: the sum of the metric over the list. */
  function Sum(rs: seq<SavedReport>, m: Metric): int
  {
    if rs == [] then 0 else Measure(rs[0].data, m) + Sum(rs[1..], m)
  }

  /** Reference definition: the statuses of the list, position by position. */
  function Statuses(rs: seq<SavedReport>): seq<ReportStatus>
  {
    seq(|rs|, i requires 0 <= i < |rs| => rs[i].status)
  }

  lemma {:induction false} ReduceIsSum(acc: int, rs: seq<SavedReport>, m: Metric)
    ensures Reduce(acc, rs, m) == acc + Sum(rs, m)
    decreases |rs|
  {
    if rs != [] {
      ReduceIsSum(acc + Measure(rs[0].data, m), rs[1..], m);
    }
  }

  lemma {:induction false} PendingOnlyCounts(rs: seq<SavedReport>)
    ensures |PendingOnly(rs)| == multiset(Statuses(rs))[Pending]
    decreases |rs|
  {
    if rs != [] {
      PendingOnlyCounts(rs[1..]);
      assert Statuses(rs) == [rs[0].status] + Statuses(rs[1..]);
      assert multiset(Statuses(rs)) == multiset{rs[0].status} + multiset(Statuses(rs[1..]));
      assert |PendingOnly(rs)| == (if rs[0].status == Pending then 1 else 0) + |PendingOnly(rs[1..])|;
    }
  }

  /** The dashboard's counters for the list `rs`. */
  function Stats(rs: seq<SavedReport>): (s: DashboardStats)
    ensures s.totalReports == |rs|
    ensures s.pendingReports <= s.totalReports
    ensures s.pendingReports == multiset(Statuses(rs))[Pending]
    ensures s.totalBatismos == Sum(rs, Batismos)
    ensures s.totalConversoes == Sum(rs, Conversoes)
  {
    PendingOnlyCounts(rs);
    ReduceIsSum(0, rs, Batismos);
    ReduceIsSum(0, rs, Conversoes);
    DashboardStats(|rs|, |PendingOnly(rs)|, Reduce(0, rs, Batismos), Reduce(0, rs, Conversoes))
  }

  /** Submitting a report at the front of the list adds one to the total, one to the
      pending count when it is pending, and its own values to each sum. */
  lemma StatsPrepend(r: SavedReport, rs: seq<SavedReport>)
    ensures Stats([r] + rs).totalReports == Stats(rs).totalReports + 1
    ensures Stats([r] + rs).pendingReports == Stats(rs).pendingReports + (if r.status == Pending then 1 else 0)
    ensures Stats([r] + rs).totalBatismos == Stats(rs).totalBatismos + r.data.bencaosBatismos
    ensures Stats([r] + rs).totalConversoes == Stats(rs).totalConversoes + r.data.conversoesTotal
  {
    assert ([r] + rs)[1..] == rs;
    assert Statuses([r] + rs) == [r.status] + Statuses(rs);
  }

  /** An example: baptism counts 2, 0 and 5 give a total of 7. */
  lemma BaptismTotalExample(r0: SavedReport, r1: SavedReport, r2: SavedReport)
    requires r0.data.bencaosBatismos == 2 && r1.data.bencaosBatismos == 0 && r2.data.bencaosBatismos == 5
    ensures Stats([r0, r1, r2]).totalBatismos == 7
  {
    assert [r0, r1, r2][1..] == [r1, r2];
    assert [r1, r2][1..] == [r2];
    assert [r2][1..] == [];
    assert Sum([r2], Batismos) == 5;
    assert Sum([r1, r2], Batismos) == 5;
  }

  /** When every report is coherent, the pending counter counts the reports missing at
      least one of their two validating signatures. */
  lemma {:induction false} PendingMeansNotFullySigned(rs: seq<SavedReport>)
    requires AllCoherent(rs)
    ensures Stats(rs).pendingReports
         == multiset(seq(|rs|, i requires 0 <= i < |rs| => FullySigned(rs[i].signatures)))[false]
    decreases |rs|
  {
    var signed := seq(|rs|, i requires 0 <= i < |rs| => FullySigned(rs[i].signatures));
    if rs != [] {
      var tail := rs[1..];
      PendingMeansNotFullySigned(tail);
      var tailSigned := seq(|tail|, i requires 0 <= i < |tail| => FullySigned(tail[i].signatures));
      assert signed == [FullySigned(rs[0].signatures)] + tailSigned;
      StatsPrepend(rs[0], tail);
      assert [rs[0]] + tail == rs;
      assert Coherent(rs[0]);
    }
  }

  /** Signing touches no report's data, so neither sum moves. */
  lemma {:induction false} SigningKeepsSum(rs: seq<SavedReport>, id: string, role: SignatureRole,
                                           name: string, timestamp: string, m: Metric)
    ensures Sum(Reports.SignMatching(rs, id, role, name, timestamp), m) == Sum(rs, m)
    decreases |rs|
  {
    if rs != [] {
      SigningKeepsSum(rs[1..], id, role, name, timestamp, m);
      var rs' := Reports.SignMatching(rs, id, role, name, timestamp);
      assert rs'[1..] == Reports.SignMatching(rs[1..], id, role, name, timestamp);
    }
  }

  /** Signing only ever validates a coherent report, so it never adds a pending one. */
  lemma {:induction false} SigningNeverAddsPending(rs: seq<SavedReport>, id: string, role: SignatureRole,
                                                   name: string, timestamp: string)
    requires AllCoherent(rs)
    ensures |PendingOnly(Reports.SignMatching(rs, id, role, name, timestamp))| <= |PendingOnly(rs)|
    decreases |rs|
  {
    if rs != [] {
      SigningNeverAddsPending(rs[1..], id, role, name, timestamp);
      var rs' := Reports.SignMatching(rs, id, role, name, timestamp);
      assert rs'[1..] == Reports.SignMatching(rs[1..], id, role, name, timestamp);
      assert Coherent(rs[0]);
      Reports.SigningNeverRevokes(rs[0], role, name, timestamp);
    }
  }

  /** On a coherent list, signing leaves the total and both sums unchanged and the
      pending count can only go down. */
  lemma SigningKeepsTotals(rs: seq<SavedReport>, id: string, role: SignatureRole,
                           name: string, timestamp: string)
    requires AllCoherent(rs)
    ensures var rs' := Reports.SignMatching(rs, id, role, name, timestamp);
      && Stats(rs').totalReports == Stats(rs).totalReports
      && Stats(rs').totalBatismos == Stats(rs).totalBatismos
      && Stats(rs').totalConversoes == Stats(rs).totalConversoes
      && Stats(rs').pendingReports <= Stats(rs).pendingReports
  {
    SigningKeepsSum(rs, id, role, name, timestamp, Batismos);
    SigningKeepsSum(rs, id, role, name, timestamp, Conversoes);
    SigningNeverAddsPending(rs, id, role, name, timestamp);
  }
}

=== FILE: report_form.dfy ===
/**
  The report form: the in-progress report's field values and the two local
  signer names, edited one field at a time and turned into a stored report on
  submission.
 */
module ReportForm {
  import opened Types

  /** The current value of field `key`. */
  function Get(d: ReportData, key: Field): Value
  {
    match key
    case Congregacao => Text(d.congregacao)
    case Area => Text(d.area)
    case BencaosBatismos => Count(d.bencaosBatismos)
    case ConversoesTotal => Count(d.conversoesTotal)
    case Other(f) => d.others(f)
  }

  /** A single-field edit: `key` takes `value` and every other field keeps its value.
      Every input of the form supplies a value of the field's declared type. */
  function UpdateData(d: ReportData, key: Field, value: Value): (d': ReportData)
    requires HasKind(value, FieldKindOf(key))
    ensures Get(d', key) == value
    ensures forall k :: k != key ==> Get(d', k) == Get(d, k)
    ensures WellFormedData(d) ==> WellFormedData(d')
  {
    match key
    case Congregacao => d.(congregacao := value.text)
    case Area => d.(area := value.text)
    case BencaosBatismos => d.(bencaosBatismos := value.count)
    case ConversoesTotal => d.(conversoesTotal := value.count)
    case Other(f) => d.(others := g => if g == f then value else d.others(g))
  }

  /** The submission guard: congregation and area must be non-empty. The test is plain
      emptiness, so a name made of spaces passes. */
  predicate CanSubmit(d: ReportData)
  {
    d.congregacao != "" && d.area != ""
  }

  /** The stored report a submission creates from the form. */
  function NewReport(d: ReportData, local: Signatures, id: string, now: string): (r: SavedReport)
    ensures r.id == id && r.data == d && r.signatures == local && r.submissionDate == now
    ensures r.status == Pending
    ensures !FullySigned(local) && EntryCoherent(local.coordenadorArea) && EntryCoherent(local.supervisaoCead)
            ==> Coherent(r)
  {
    SavedReport(id, d, local, Pending, now)
  }
}

=== FILE: reports.dfy ===
/**
  The report list's signature update: recording a validating signature on the
  selected report, and recomputing that report's status from its two slots.
 */
module Reports {
  import opened Types

  /** The slot a successful signature writes. */
  function SignedEntry(name: string, timestamp: string): (e: SignatureEntry)
    ensures e.isValid && e.signedAt == Some(timestamp) && e.name == name
    ensures EntryCoherent(e)
  {
    SignatureEntry(name, Some(timestamp), true)
  }

  /** One report after `role` signs it as `name` at `timestamp`: the role's slot is
      overwritten (whether or not it was signed before) and the status is recomputed. */
  function SignReport(r: SavedReport, role: SignatureRole, name: string, timestamp: string): (r': SavedReport)
    ensures Slot(r'.signatures, role) == SignatureEntry(name, Some(timestamp), true)
    ensures Slot(r'.signatures, OtherRole(role)) == Slot(r.signatures, OtherRole(role))
    ensures r'.signatures.dirigenteCead == r.signatures.dirigenteCead
    ensures r'.signatures.responsavelCongregacao == r.signatures.responsavelCongregacao
    ensures r'.id == r.id && r'.data == r.data && r'.submissionDate == r.submissionDate
    ensures r'.status == Validated <==> Slot(r.signatures, OtherRole(role)).isValid
    ensures StatusConsistent(r')
  {
    var entry := SignedEntry(name, timestamp);
    var updated :=
      if role == Coordinator then r.signatures.(coordenadorArea := entry)
      else r.signatures.(supervisaoCead := entry);
    var isFullyValidated :=
      (if role == Coordinator then true else updated.coordenadorArea.isValid) &&
      (if role == Supervisor then true else updated.supervisaoCead.isValid);
    r.(signatures := updated, status := if isFullyValidated then Validated else Pending)
  }

  /** The list after every report whose id is `id` is signed; the others are kept, in order. */
  function SignMatching(rs: seq<SavedReport>, id: string, role: SignatureRole, name: string, timestamp: string)
    : (rs': seq<SavedReport>)
    ensures |rs'| == |rs|
    ensures forall i :: 0 <= i < |rs| && rs[i].id != id ==> rs'[i] == rs[i]
    ensures forall i :: 0 <= i < |rs| && rs[i].id == id ==> rs'[i] == SignReport(rs[i], role, name, timestamp)
  {
    if rs == [] then []
    else
      var head := if rs[0].id == id then SignReport(rs[0], role, name, timestamp) else rs[0];
      [head] + SignMatching(rs[1..], id, role, name, timestamp)
  }

  /** The report list's success callback: with no report selected (the selection is
      null or empty) nothing happens; otherwise the selected report is signed. */
  function HandleSignatureSuccess(rs: seq<SavedReport>, selected: Option<string>, role: SignatureRole,
                                  name: string, timestamp: string): (rs': seq<SavedReport>)
    ensures selected.None? || selected == Some("") ==> rs' == rs
    ensures |rs'| == |rs|
    ensures forall i :: 0 <= i < |rs| && Some(rs[i].id) != selected ==> rs'[i] == rs[i]
    ensures forall i :: 0 <= i < |rs| && Some(rs[i].id) == selected && rs[i].id != "" ==>
              rs'[i] == SignReport(rs[i], role, name, timestamp)
  {
    if selected.None? || selected.value == "" then rs
    else SignMatching(rs, selected.value, role, name, timestamp)
  }

  /** A selection that names no report in the list changes nothing. */
  lemma UnknownIdChangesNothing(rs: seq<SavedReport>, selected: Option<string>, role: SignatureRole,
                                name: string, timestamp: string)
    requires forall i :: 0 <= i < |rs| ==> Some(rs[i].id) != selected
    ensures HandleSignatureSuccess(rs, selected, role, name, timestamp) == rs
  {
    var rs' := HandleSignatureSuccess(rs, selected, role, name, timestamp);
    assert forall i :: 0 <= i < |rs| ==> rs'[i] == rs[i];
  }

  /** Signing keeps every report coherent: the signed report's status matches its two
      slots, and its slots carry a time exactly when they are valid. */
  lemma SignPreservesCoherence(r: SavedReport, role: SignatureRole, name: string, timestamp: string)
    requires EntryCoherent(r.signatures.coordenadorArea) && EntryCoherent(r.signatures.supervisaoCead)
    ensures Coherent(SignReport(r, role, name, timestamp))
  {
    var r' := SignReport(r, role, name, timestamp);
    assert EntryCoherent(Slot(r'.signatures, role));
    assert EntryCoherent(Slot(r'.signatures, OtherRole(role)));
  }

  /** The list invariant survives the success callback. */
  lemma HandleSignaturePreservesInvariant(rs: seq<SavedReport>, selected: Option<string>, role: SignatureRole,
                                          name: string, timestamp: string)
    requires AllCoherent(rs)
    ensures AllCoherent(HandleSignatureSuccess(rs, selected, role, name, timestamp))
  {
    var rs' := HandleSignatureSuccess(rs, selected, role, name, timestamp);
    forall i | 0 <= i < |rs'|
      ensures Coherent(rs'[i])
    {
      if Some(rs[i].id) == selected && rs[i].id != "" {
        SignPreservesCoherence(rs[i], role, name, timestamp);
      }
    }
  }

  /** The two roles sign independent slots: signing in either order gives the same report. */
  lemma SigningOrderIrrelevant(r: SavedReport, coordinatorName: string, coordinatorTime: string,
                               supervisorName: string, supervisorTime: string)
    ensures SignReport(SignReport(r, Coordinator, coordinatorName, coordinatorTime), Supervisor, supervisorName, supervisorTime)
         == SignReport(SignReport(r, Supervisor, supervisorName, supervisorTime), Coordinator, coordinatorName, coordinatorTime)
    ensures SignReport(SignReport(r, Coordinator, coordinatorName, coordinatorTime), Supervisor, supervisorName, supervisorTime).status
         == Validated
  {
  }

  /** One signature alone never validates a report whose other slot is unsigned. */
  lemma OneSignatureLeavesPending(r: SavedReport, role: SignatureRole, name: string, timestamp: string)
    requires !Slot(r.signatures, OtherRole(role)).isValid
    ensures SignReport(r, role, name, timestamp).status == Pending
  {
  }

  /** The handler has no guard against re-signing: signing a slot again overwrites it, so
      only the last signature is kept. */
  lemma ResignOverwrites(r: SavedReport, role: SignatureRole, name1: string, time1: string,
                         name2: string, time2: string)
    ensures SignReport(SignReport(r, role, name1, time1), role, name2, time2) == SignReport(r, role, name2, time2)
  {
  }

  /** A valid slot stays valid: signing never un-signs either slot. */
  lemma SigningNeverRevokes(r: SavedReport, role: SignatureRole, name: string, timestamp: string)
    ensures r.signatures.coordenadorArea.isValid ==> SignReport(r, role, name, timestamp).signatures.coordenadorArea.isValid
    ensures r.signatures.supervisaoCead.isValid ==> SignReport(r, role, name, timestamp).signatures.supervisaoCead.isValid
    ensures r.status == Validated && StatusConsistent(r) ==> SignReport(r, role, name, timestamp).status == Validated
  {
  }
}

=== FILE: signature_modal.dfy ===
/**
  The signing gate: the dialog in which a coordinator or a supervisor types a
  name and the role's password to validate a report. Submitting the dialog
  checks the password first and the name second, and only when both pass does
  it hand the name to the report list and close.
 */
module SignatureModal {
  import opened Types
  import opened Constants
  import Text

  const WrongPasswordError: string := "Senha incorreta. Acesso negado."
  const ShortNameError: string := "Por favor, digite o nome completo."

  /** The dialog's own fields: the typed name and password and the error shown. */
  datatype ModalState = ModalState(name: string, password: string, error: string)

  const BlankModal: ModalState := ModalState("", "", "")

  /** What one submission of the dialog does: the dialog's new fields, the name handed
      to the success callback (if it was called), and whether the dialog asks to close. */
  datatype Submission = Submission(state: ModalState, signedAs: Option<string>, closes: bool)

  /** The password that unlocks `role`; every role other than the coordinator's uses
      the supervisor's password. */
  function ExpectedPassword(role: SignatureRole): (p: string)
    ensures role == Coordinator ==> p == CoordinatorPassword
    ensures role != Coordinator ==> p == SupervisorPassword
  {
    if role == Coordinator then CoordinatorPassword else SupervisorPassword
  }

  /** The name, with surrounding white space removed, is at least three UTF-16 code
      units long. */
  predicate NameLongEnough(name: string)
  {
    Text.Utf16Length(Text.Trim(name)) >= 3
  }

  /** Submitting the dialog for `role`. The error is cleared first; a wrong password
      sets the password error; a right password with a short name sets the name error;
      otherwise the name as typed (untrimmed) is handed on, the fields are cleared and the dialog
      closes. */
  function HandleSubmit(m: ModalState, role: SignatureRole): (out: Submission)
    ensures out.signedAs.Some? <==> m.password == ExpectedPassword(role) && NameLongEnough(m.name)
    ensures out.closes <==> out.signedAs.Some?
    ensures out.signedAs.Some? ==> out.signedAs.value == m.name && out.state == BlankModal
    ensures out.signedAs.None? ==> out.state.name == m.name && out.state.password == m.password
    ensures m.password != ExpectedPassword(role) ==> out.state.error == WrongPasswordError
    ensures m.password == ExpectedPassword(role) && !NameLongEnough(m.name) ==> out.state.error == ShortNameError
  {
    var cleared := m.(error := "");
    if m.password == ExpectedPassword(role) then
      if Text.Utf16Length(Text.Trim(m.name)) < 3 then
        Submission(cleared.(error := ShortNameError), None, false)
      else
        Submission(cleared.(password := "", name := ""), Some(m.name), true)
    else
      Submission(cleared.(error := WrongPasswordError), None, false)
  }

  /** The two roles' passwords differ, so neither role's password opens the other's slot. */
  lemma PasswordsDistinct(role: SignatureRole)
    ensures ExpectedPassword(role) != ExpectedPassword(OtherRole(role))
  {
    assert CoordinatorPassword[0] != SupervisorPassword[0];
  }

  /** With a wrong password the name is never looked at: whatever name was typed, the
      outcome is the password error and nothing is signed. */
  lemma PasswordCheckedFirst(m: ModalState, otherName: string, role: SignatureRole)
    requires m.password != ExpectedPassword(role)
    ensures HandleSubmit(m, role).state.error != ShortNameError
    ensures HandleSubmit(m, role).signedAs.None?
    ensures HandleSubmit(m.(name := otherName), role).state == HandleSubmit(m, role).state.(name := otherName)
  {
  }

  /** A name of white space only, however long, is refused even with the right password. */
  lemma BlankNameRefused(m: ModalState, role: SignatureRole)
    requires m.password == ExpectedPassword(role)
    requires Text.AllWhiteSpace(m.name)
    ensures HandleSubmit(m, role).signedAs.None?
    ensures HandleSubmit(m, role).state.error == ShortNameError
  {
    Text.AllWhiteSpaceTrimsEmpty(m.name);
  }

  /** A name whose trimmed form has at least three characters passes the name check, and
      one with fewer than two never does. Two characters can pass: see
      `TwoAstralCharactersAccepted`. */
  lemma NameLengthBound(name: string)
    ensures |Text.Trim(name)| >= 3 ==> NameLongEnough(name)
    ensures |Text.Trim(name)| < 2 ==> !NameLongEnough(name)
  {
  }

  /** Because the check counts UTF-16 code units, a name of just two characters outside the
      Basic Multilingual Plane (two emoji, say) passes it. */
  lemma TwoAstralCharactersAccepted(a: char, b: char)
    requires Text.Astral(a) && Text.Astral(b)
    ensures |Text.Trim([a, b])| == 2
    ensures NameLongEnough([a, b])
  {
    var name := [a, b];
    assert !Text.IsWhiteSpace(a) && !Text.IsWhiteSpace(b);
    assert Text.TrimStart(name) == name;
    assert Text.TrimEnd(name) == name;
    assert name[1..] == [b] && [b][1..] == [];
  }

  /** An acceptable name and a role's password are never empty, so the dialog's required
      inputs are filled in whenever the check can pass. */
  lemma AcceptedInputsNonEmpty(name: string, role: SignatureRole)
    requires NameLongEnough(name)
    ensures name != "" && ExpectedPassword(role) != ""
  {
    assert |Text.Trim(name)| >= 2;
  }
}

=== FILE: text.dfy ===
/**
  The two JavaScript string operations the signing gate relies on: `trim`, which
  strips white space and line terminators from both ends, and `length`, which
  counts UTF-16 code units rather than characters.
 */
module Text {

  /** ECMAScript's WhiteSpace and LineTerminator characters: tab, vertical tab, form
      feed, the byte order mark, the space separators of Unicode category Zs, and
      line feed, carriage return, line separator and paragraph separator. */
  predicate IsWhiteSpace(c: char)
  {
    || c == '\t' || c == '\U{000B}' || c == '\U{000C}' || c == '\U{FEFF}'
    || c == ' ' || c == '\U{00A0}' || c == '\U{1680}'
    || ('\U{2000}' <= c <= '\U{200A}')
    || c == '\U{202F}' || c == '\U{205F}' || c == '\U{3000}'
    || c == '\n' || c == '\r' || c == '\U{2028}' || c == '\U{2029}'
  }

  predicate AllWhiteSpace(s: string)
  {
    forall i :: 0 <= i < |s| ==> IsWhiteSpace(s[i])
  }

  lemma WhiteSpaceConcat(a: string, b: string)
    ensures AllWhiteSpace(a) && AllWhiteSpace(b) ==> AllWhiteSpace(a + b)
  {
  }

  /** What trimming the rest of `s` leaves, after a leading white-space character, is
      also what trimming `s` leaves. */
  lemma DropLeadingWhiteSpace(s: string, r: string)
    requires |s| > 0 && IsWhiteSpace(s[0])
    requires |r| <= |s| - 1 && r == s[1..][|s| - 1 - |r|..] && AllWhiteSpace(s[1..][..|s| - 1 - |r|])
    ensures r == s[|s| - |r|..] && AllWhiteSpace(s[..|s| - |r|])
  {
    var cut := |s| - |r|;
    assert s[1..][cut - 1..] == s[cut..];
    assert s[..cut] == [s[0]] + s[1..][..cut - 1];
    assert AllWhiteSpace([s[0]]);
    WhiteSpaceConcat([s[0]], s[1..][..cut - 1]);
  }

  /** What trimming the start of `s` leaves, before a trailing white-space character, is
      also what trimming `s` leaves. */
  lemma DropTrailingWhiteSpace(s: string, r: string)
    requires |s| > 0 && IsWhiteSpace(s[|s| - 1])
    requires |r| <= |s| - 1 && r == s[..|s| - 1][..|r|] && AllWhiteSpace(s[..|s| - 1][|r|..])
    ensures r == s[..|r|] && AllWhiteSpace(s[|r|..])
  {
    var init := s[..|s| - 1];
    assert init[..|r|] == s[..|r|];
    assert s[|r|..] == init[|r|..] + [s[|s| - 1]];
    assert AllWhiteSpace([s[|s| - 1]]);
    WhiteSpaceConcat(init[|r|..], [s[|s| - 1]]);
  }

  /** `s` without its leading white space. */
  function TrimStart(s: string): (r: string)
    ensures |r| <= |s| && r == s[|s| - |r|..]
    ensures AllWhiteSpace(s[..|s| - |r|])
    ensures r == [] || !IsWhiteSpace(r[0])
  {
    if |s| > 0 && IsWhiteSpace(s[0]) then
      var r := TrimStart(s[1..]);
      DropLeadingWhiteSpace(s, r);
      r
    else s
  }

  /** `s` without its trailing white space. */
  function TrimEnd(s: string): (r: string)
    ensures |r| <= |s| && r == s[..|r|]
    ensures AllWhiteSpace(s[|r|..])
    ensures r == [] || !IsWhiteSpace(r[|r| - 1])
  {
    if |s| > 0 && IsWhiteSpace(s[|s| - 1]) then
      var r := TrimEnd(s[..|s| - 1]);
      DropTrailingWhiteSpace(s, r);
      r
    else s
  }

  /** JavaScript's `String.prototype.trim`: the slice of `s` between its leading and
      trailing white space. */
  function Trim(s: string): (r: string)
    ensures |r| <= |s|
    ensures r == [] || (!IsWhiteSpace(r[0]) && !IsWhiteSpace(r[|r| - 1]))
  {
    TrimEnd(TrimStart(s))
  }

  /** The number of UTF-16 code units of `s`, which is what JavaScript's `length`
      reports: characters outside the Basic Multilingual Plane take two. */
  function Utf16Length(s: string): (n: nat)
    ensures |s| <= n <= 2 * |s|
  {
    if |s| == 0 then 0
    else (if Astral(s[0]) then 2 else 1) + Utf16Length(s[1..])
  }

  /** `r` sits at offset `a` of `s` with only white space before and after it. */
  ghost predicate PaddedBy(s: string, r: string, a: int)
  {
    0 <= a <= |s| - |r| && s[a..a + |r|] == r && AllWhiteSpace(s[..a]) && AllWhiteSpace(s[a + |r|..])
  }

  /** Trimming removes only white space: `s` is the trimmed text with white space on
      either side. */
  lemma {:induction false} TrimIsSlice(s: string)
    ensures exists a :: PaddedBy(s, Trim(s), a)
  {
    var t := TrimStart(s);
    var a := |s| - |t|;
    var r := TrimEnd(t);
    assert r == Trim(s);
    assert s[a..a + |r|] == t[..|r|];
    assert s[a + |r|..] == t[|r|..];
    assert PaddedBy(s, r, a);
  }

  /** Every suffix of a text made only of white space is made only of white space. */
  lemma SuffixOfWhiteSpace(s: string, a: nat)
    requires a <= |s|
    ensures AllWhiteSpace(s) ==> AllWhiteSpace(s[a..])
  {
    if AllWhiteSpace(s) {
      forall i | 0 <= i < |s| - a
        ensures IsWhiteSpace(s[a..][i])
      {
        assert s[a..][i] == s[a + i];
      }
    }
  }

  /** A text made only of white space, however long, trims to nothing. */
  lemma {:induction false} AllWhiteSpaceTrimsEmpty(s: string)
    ensures AllWhiteSpace(s) <==> Trim(s) == []
  {
    var t := TrimStart(s);
    if AllWhiteSpace(s) {
      SuffixOfWhiteSpace(s, |s| - |t|);
    } else if Trim(s) == [] {
      var a := |s| - |t|;
      assert AllWhiteSpace(t) by {
        assert AllWhiteSpace(t[0..]);
        assert t[0..] == t;
      }
      forall i | 0 <= i < |s|
        ensures IsWhiteSpace(s[i])
      {
        if i < a {
          assert s[..a][i] == s[i];
        } else {
          assert t[i - a] == s[i];
        }
      }
      assert false;
    }
  }

  /** Trimming twice is trimming once. */
  lemma TrimIdempotent(s: string)
    ensures Trim(Trim(s)) == Trim(s)
  {
    var r := Trim(s);
    if r != [] {
      assert TrimStart(r) == r;
      assert TrimEnd(r) == r;
    }
  }

  /** A character outside the Basic Multilingual Plane, which UTF-16 writes as two code
      units. */
  predicate Astral(c: char)
  {
    c as int >= 0x1_0000
  }

  /** The code-unit count of a concatenation is the sum of the two counts. */
  lemma {:induction false} Utf16LengthAppend(a: string, b: string)
    ensures Utf16Length(a + b) == Utf16Length(a) + Utf16Length(b)
    decreases |a|
  {
    if a == [] {
      assert a + b == b;
    } else {
      assert (a + b)[0] == a[0] && (a + b)[1..] == a[1..] + b;
      Utf16LengthAppend(a[1..], b);
    }
  }

  /** The code-unit count equals the character count exactly when no character lies
      outside the Basic Multilingual Plane. */
  lemma {:induction false} Utf16LengthIsLengthIffNoAstral(s: string)
    ensures Utf16Length(s) == |s| <==> forall i :: 0 <= i < |s| ==> !Astral(s[i])
    decreases |s|
  {
    if s != [] {
      Utf16LengthIsLengthIffNoAstral(s[1..]);
      assert forall i :: 1 <= i < |s| ==> s[i] == s[1..][i - 1];
    }
  }

  /** The code-unit count is twice the character count exactly when every character lies
      outside the Basic Multilingual Plane. */
  lemma {:induction false} Utf16LengthIsDoubleIffAllAstral(s: string)
    ensures Utf16Length(s) == 2 * |s| <==> forall i :: 0 <= i < |s| ==> Astral(s[i])
    decreases |s|
  {
    if s != [] {
      Utf16LengthIsDoubleIffAllAstral(s[1..]);
      assert forall i :: 1 <= i < |s| ==> s[i] == s[1..][i - 1];
    }
  }
}

=== FILE: types.dfy ===
/**
  The data model of the report lifecycle: the report form's field values, the
  signature block with its two password-gated slots, and a submitted report.
  The report form has about seventy fields; the lifecycle reads four of them
  (congregation, area, baptisms, conversions), which are kept as typed fields,
  and the rest are kept by name in `others`.
 */
module Types {

  datatype Option<T> = None | Some(value: T)

  /** A form field's value: text, a count, a yes/no flag, or null (no attachment). */
  datatype Value = Text(text: string) | Count(count: int) | Flag(flag: bool) | Null

  /** The declared type of a form field. */
  datatype FieldKind = TextKind | CountKind | FlagKind | AttachmentKind

  /** The report form's fields other than the four the lifecycle reads, one per key of
      the form's data record. */
  datatype OtherField =
    | Mes | Ano | Whatsapp
    | CeadMatriculadosTotal | CeadDirigente | CeadViceDirigente | CeadSecretaria
    | CeadViceSecretaria | CeadAdultos | CeadJovens | CeadAdolescentes | CeadCriancas
    | AtividadesEvangelismoPessoal | AtividadesEvangelismoTransito
    | AtividadesEvangelismoInfantil | AtividadesEvangelismoNoturno | AtividadesEvangelismoLar
    | AtividadesCultoRelampago | AtividadesCultoMensal | AtividadesCultoMissoes
    | AtividadesDomingo | AtividadesPontoPregacao | AtividadesCultoRodizio
    | AtividadesConsagracao | AtividadesConcentracaoEvangelica | AtividadesVisitaEnfermos
    | AtividadesVisitaNaoConvertidos | AtividadesCultoJovem
    | MocidadeDirigente | MocidadeViceDirigente | MocidadeSecretaria | MocidadeViceSecretaria
    | MocidadeAdultos | MocidadeJovens | MocidadeAdolescentes | MocidadeCriancas
    | BencaosRenovos | BencaosCuras | BencaosOutros
    | LiteraturaQuantidade
    | AreaConferencia | AreaPreCongresso | AreaFormatura | AreaCultoJovens | AreaSabado
    | AreaCruzada
    | DiscipuladoTurmasBasico | DiscipuladoTurmasIntermediario | DiscipuladoTurmasAvancado
    | DiscipuladoTotalProfessores | DiscipuladoPossuiResponsavel
    | DiscipuladoAlunosBasico | DiscipuladoAlunosIntermediario | DiscipuladoAlunosAvancado
    | DiscipuladoFaixaAdolescentes | DiscipuladoFaixaJovens | DiscipuladoFaixaAdultos
    | DiscipuladoFaixaIdosos | DiscipuladoFaixaPcd
    | DiscipuladoPresencas | DiscipuladoAusencias
    | DiscipuladoNovosAlunos | DiscipuladoAguardandoBatismo | DiscipuladoVisitasNovos
    | DiscipuladoAconselhamento | DiscipuladoVisitasMinisteriais | DiscipuladoVisitasApoio
    | DiscipuladoDiasCulto
    | AttachmentName

  /** A key of the report form's data record. */
  datatype Field = Congregacao | Area | BencaosBatismos | ConversoesTotal | Other(field: OtherField)

  /** The declared type of an other field: four texts, one yes/no flag, the attachment
      name, and counts for the rest. */
  function KindOf(f: OtherField): FieldKind
  {
    match f
    case Mes | Whatsapp | AtividadesDomingo | AreaSabado => TextKind
    case DiscipuladoPossuiResponsavel => FlagKind
    case AttachmentName => AttachmentKind
    case _ => CountKind
  }

  /** The declared type of any field of the report form. */
  function FieldKindOf(key: Field): FieldKind
  {
    match key
    case Congregacao | Area => TextKind
    case BencaosBatismos | ConversoesTotal => CountKind
    case Other(f) => KindOf(f)
  }

  /** `v` is a value of the declared type `k`; an attachment name may be null. */
  predicate HasKind(v: Value, k: FieldKind)
  {
    match k
    case TextKind => v.Text?
    case CountKind => v.Count?
    case FlagKind => v.Flag?
    case AttachmentKind => v.Text? || v.Null?
  }

  /** The values of one report form: a record with a value for every field. */
  datatype ReportData = ReportData(
    congregacao: string,
    area: string,
    bencaosBatismos: int,
    conversoesTotal: int,
    others: OtherField -> Value)

  /** Every other field holds a value of its declared type. */
  predicate WellFormedData(d: ReportData)
  {
    forall f :: HasKind(d.others(f), KindOf(f))
  }

  /** One password-gated validating signature. */
  datatype SignatureEntry = SignatureEntry(name: string, signedAt: Option<string>, isValid: bool)

  /** The two local signer names (not validated) and the two validating slots. */
  datatype Signatures = Signatures(
    dirigenteCead: string,
    responsavelCongregacao: string,
    coordenadorArea: SignatureEntry,
    supervisaoCead: SignatureEntry)

  datatype SignatureRole = Coordinator | Supervisor

  datatype ReportStatus = Pending | Validated

  datatype SavedReport = SavedReport(
    id: string,
    data: ReportData,
    signatures: Signatures,
    status: ReportStatus,
    submissionDate: string)

  /** The validating slot that `role` signs. */
  function Slot(s: Signatures, role: SignatureRole): SignatureEntry
  {
    match role
    case Coordinator => s.coordenadorArea
    case Supervisor => s.supervisaoCead
  }

  function OtherRole(role: SignatureRole): (other: SignatureRole)
    ensures other != role
  {
    match role
    case Coordinator => Supervisor
    case Supervisor => Coordinator
  }

  /** Both validating slots are signed. */
  predicate FullySigned(s: Signatures)
  {
    s.coordenadorArea.isValid && s.supervisaoCead.isValid
  }

  /** The lifecycle's central invariant: a report is VALIDATED exactly when both slots are valid. */
  predicate StatusConsistent(r: SavedReport)
  {
    r.status == Validated <==> FullySigned(r.signatures)
  }

  /** A slot carries a signing time exactly when it is valid. */
  predicate EntryCoherent(e: SignatureEntry)
  {
    e.signedAt.None? <==> !e.isValid
  }

  /** The invariant every stored report keeps. */
  predicate Coherent(r: SavedReport)
  {
    && StatusConsistent(r)
    && EntryCoherent(r.signatures.coordenadorArea)
    && EntryCoherent(r.signatures.supervisaoCead)
  }

  predicate AllCoherent(rs: seq<SavedReport>)
  {
    forall i :: 0 <= i < |rs| ==> Coherent(rs[i])
  }
}
